=== FILE: README.md ===
# HazeClue data-access core in Dafny

A model of the generic data-access layer of HazeClue, a CRUD web-API
scaffold: query specifications, the specification evaluator, the generic
repository, and the unit of work that caches one repository per entity type
and commits everything staged through them in one call.

- `wrappers.dfy` — `Option` (a reference that may be null) and `Result` (an
  operation that may throw).
- `domain.dfy` — entity types (namespace plus short name), entities with an
  integer key, `Query` (the rows a query yields, plus the relations it
  eagerly loads), the error taxonomy, and the two query primitives the
  evaluator composes: `Where` (via `Filter`) and `Include`.
- `contracts.dfy` — the shape of `ISpecification<T>`. Each of its three
  fields may be null.
- `evaluator.dfy` — `SpecificationEvalutor<T>.GetQuery` as a filter followed
  by two left folds. It also holds a reference reading: a specification as a
  plan of steps run one after another.
- `base_specification.dfy` — the three `BaseSpecification<T>` constructors
  and the appends callers make to its include lists.
- `db_context.dfy` — the store session the repositories share, kept
  abstract. It holds the committed tables per entity type, the log of staged
  changes, the keys of tracked entities and a disposed flag. `SaveChanges`
  applies the log as one all-or-nothing transaction.
- `generic_repository.dfy` — `GenericRepository<T>`. Writes only stage
  changes; reads go through the evaluator.
- `unit_of_work.dfy` — `UnitOfWork`: the lazy per-short-name repository
  cache, staging calls made through its repositories into its one session,
  `CompleteAsync` and `DisposeAsync`.

Three behaviours of the code worth knowing:
- Asking for a repository never fails for an unmapped type. `Repository<T>()`
  only touches its dictionary. The error (`NotInModel`) surfaces at the
  repository's first store access.
- The cache is keyed by the short type name. Two entity types that share a
  short name therefore share one slot. The second type's request fails on the
  downcast (`InvalidCast`) and leaves the cache unchanged.
- Simple includes run only when the list is non-null and non-empty; the same
  holds for complex includes (`?.Any() == true`). A null list therefore behaves
  exactly like an empty one.

## Model

| member | source | states |
|---|---|---|
| Domain.FilterCounts | HazeClue.Core/Domain/Specifications/SpecificationEvalutor.cs:12-13 | the filter stage keeps each row as many times as the input has it when the criteria accepts it, and never otherwise |
| Domain.FilterMembers | HazeClue.Core/Domain/Specifications/SpecificationEvalutor.cs:12-13 | a row is in the filtered query exactly when it is in the input and the criteria accepts it |
| Domain.FilterAppend | HazeClue.Core/Domain/Specifications/SpecificationEvalutor.cs:12-13 | filtering distributes over concatenation, so kept rows stay in input order |
| Domain.FilterKeepsAllIff | HazeClue.Core/Domain/Specifications/SpecificationEvalutor.cs:12-13 | a filter returns its input unchanged exactly when every row satisfies it |
| Domain.Where | HazeClue.Core/Domain/Specifications/SpecificationEvalutor.cs:12-13 | the filter step leaves the loaded relations alone and keeps a row exactly when it is in the input and the criteria accepts it |
| Domain.Include | HazeClue.Core/Domain/Specifications/SpecificationEvalutor.cs:16 | one include leaves rows and order alone and adds exactly its relation to the loaded ones |
| SpecificationEvaluator.ApplyIncludes | HazeClue.Core/Domain/Specifications/SpecificationEvalutor.cs:15-16 | the fold over the simple includes keeps the rows and loads every listed relation in addition to those already loaded |
| SpecificationEvaluator.IncludeOrderIrrelevant | HazeClue.Core/Domain/Specifications/SpecificationEvalutor.cs:15-16 | two include lists naming the same relations give the same query, whatever their order |
| SpecificationEvaluator.ApplyComplexIncludesSnoc | HazeClue.Core/Domain/Specifications/SpecificationEvalutor.cs:17-18 | appending a transform to the complex includes applies it to the previous fold's output |
| SpecificationEvaluator.ComplexIncludesNest | HazeClue.Core/Domain/Specifications/SpecificationEvalutor.cs:17-18 | the fold over the complex includes equals fN(... f2(f1(q))) |
| SpecificationEvaluator.GetQuery | HazeClue.Core/Domain/Specifications/SpecificationEvalutor.cs:9-20 | identity law when there is no criteria and no include; without complex includes the rows are exactly the admitted input rows (as a multiset and as a set), all input rows in input order when there is no criteria, and every listed relation is loaded |
| SpecificationEvaluator.NullIncludesAreEmpty | HazeClue.Core/Domain/Specifications/SpecificationEvalutor.cs:15-17 | a null include list or complex-include list evaluates exactly like an empty one |
| SpecificationEvaluator.Plan | HazeClue.Core/Domain/Specifications/SpecificationEvalutor.cs:11-19 | a specification's plan has one step per filter, simple include and complex include, and never puts a later stage before an earlier one |
| SpecificationEvaluator.GetQueryRunsPlan | HazeClue.Core/Domain/Specifications/SpecificationEvalutor.cs:11-19 | the evaluator's result is the plan run step by step: filter, then simple includes in list order, then complex includes in list order |
| BaseSpecification.Default | HazeClue.Core/Domain/Specifications/BaseSpecification.cs:9-13 | the parameterless constructor leaves the criteria null and both lists empty, so the specification returns every query unchanged |
| BaseSpecification.FromCriteria | HazeClue.Core/Domain/Specifications/BaseSpecification.cs:15-18 | the one-argument constructor sets the criteria and leaves both lists empty; its query keeps exactly the rows the criteria accepts and loads nothing new |
| BaseSpecification.FromCriteriaAndInclude | HazeClue.Core/Domain/Specifications/BaseSpecification.cs:20-24 | the two-argument constructor sets the criteria, leaves the simple includes empty and makes the complex includes exactly the one transform, which runs on the filtered query |
| BaseSpecification.AddInclude | HazeClue.Core/Domain/Specifications/BaseSpecification.cs:10-11 | appending a simple include fails exactly when the list is null; otherwise it extends that list alone |
| BaseSpecification.AddComplexInclude | HazeClue.Core/Domain/Specifications/BaseSpecification.cs:12 | appending a complex include fails exactly when the list is null; otherwise it extends that list alone |
| BaseSpecification.AddIncludeLoadsRelation | HazeClue.Core/Domain/Specifications/BaseSpecification.cs:10-11 | with no complex includes, an appended simple include changes no row of the result and adds its relation to the loaded ones |
| BaseSpecification.AddComplexIncludeRunsLast | HazeClue.Core/Domain/Specifications/BaseSpecification.cs:12 | an appended complex include runs last, on what the specification produced before |
| GenericRepository.AddAsync | HazeClue.Infrastructure/Repositories/GenericRepository.cs:15-18 | adding stages one insert and leaves the committed tables and the read-tracking record alone; in the model it fails only for a disposed or unmapped context |
| GenericRepository.Delete | HazeClue.Infrastructure/Repositories/GenericRepository.cs:20-23 | deleting stages one removal and leaves the committed tables alone |
| GenericRepository.Update | HazeClue.Infrastructure/Repositories/GenericRepository.cs:25-29 | updating stages one full replacement and leaves the committed tables alone |
| GenericRepository.RemoveRange | HazeClue.Infrastructure/Repositories/GenericRepository.cs:56-59 | removing a range stages one removal per entity, in order, and leaves the committed tables alone |
| GenericRepository.DeletionsInOrder | HazeClue.Infrastructure/Repositories/GenericRepository.cs:56-59 | the removals a range stages are, position by position, one for each entity of the range |
| GenericRepository.RemoveRangeIsDeleteEach | HazeClue.Infrastructure/Repositories/GenericRepository.cs:56-59 | removing a non-empty range stages the same changes as deleting its entities one by one |
| GenericRepository.FirstWithId | HazeClue.Infrastructure/Repositories/GenericRepository.cs:31-34 | the key lookup finds a row exactly when some row has the key; with unique keys the row found is the only one |
| GenericRepository.GetByIdAsync | HazeClue.Infrastructure/Repositories/GenericRepository.cs:31-34 | a missing key yields absent, not an error; a present key yields that row, which becomes tracked; nothing is staged |
| GenericRepository.GetAllAsync | HazeClue.Infrastructure/Repositories/GenericRepository.cs:36-39 | the untracked list read returns the committed table as it is |
| GenericRepository.GetAllWithSpecAsync | HazeClue.Infrastructure/Repositories/GenericRepository.cs:48-54 | the spec list read fails only for a disposed or unmapped context; otherwise it is the whole table run through the specification's plan (filter, simple includes, complex includes), which without complex includes means exactly the admitted table rows, each as often as the table has it, with the listed relations loaded |
| GenericRepository.GetEntityWithSpecAsync | HazeClue.Infrastructure/Repositories/GenericRepository.cs:41-46 | the single read, without complex includes, finds an entity exactly when some table row is admitted, and that entity is admitted; only tracking changes |
| GenericRepository.EntityWithSpecIsHeadOfAll | HazeClue.Infrastructure/Repositories/GenericRepository.cs:41-54 | the single read fails exactly when the list read fails, and otherwise returns the list's first row, or absent for an empty list |
| GenericRepository.DefaultSpecReadsAll | HazeClue.Infrastructure/Repositories/GenericRepository.cs:36-54 | with the default specification the spec list read returns the same rows, in the same order, as the plain list read |
| GenericRepository.FilteredReadLoadsRelation | HazeClue.Infrastructure/Repositories/GenericRepository.cs:48-54 | a criteria plus one appended include reads exactly the matching rows, with that relation loaded |
| DbContext.SaveChanges | HazeClue.Infrastructure/Repositories/UnitOfWork.cs:31-34 | a commit succeeds exactly when the context is live and either nothing is staged or the database accepts and every staged change applies; with nothing staged it reports 0 and changes nothing; on success it reports the number of staged changes, clears them and keeps keys unique; on failure nothing is written |
| DbContext.CommitTwoInserts | HazeClue.Infrastructure/Repositories/UnitOfWork.cs:31-34 | two staged inserts commit together as two changes |
| DbContext.CommitSingleUpdate | HazeClue.Infrastructure/Repositories/GenericRepository.cs:25-29 | a committed update of a stored key overwrites that row in place, and with unique keys exactly that one row; an update of a missing key is a concurrency conflict that writes nothing |
| DbContext.CommitSingleDelete | HazeClue.Infrastructure/Repositories/GenericRepository.cs:20-23 | a committed delete of a stored key leaves no row with that key, and with unique keys cuts out exactly that row, the others kept in order; other tables are untouched; a delete of a missing key is a concurrency conflict that writes nothing |
| DbContext.CommitSingleInsert | HazeClue.Infrastructure/Repositories/UnitOfWork.cs:31-34 | a commit of one staged insert reports one change and adds exactly one row, under a key no other row has |
| UnitOfWork.Create | HazeClue.Infrastructure/Repositories/UnitOfWork.cs:9-14 | a new unit owns the given session and starts with an empty, valid cache |
| UnitOfWork.Repository | HazeClue.Infrastructure/Repositories/UnitOfWork.cs:16-24 | the first request for a short name adds one fresh repository, built by this unit and bound to its context; a later request returns the cached instance and changes nothing; a same-named other type fails the cast; other entries and the session never change |
| UnitOfWork.RepositoryIsStable | HazeClue.Infrastructure/Repositories/UnitOfWork.cs:19-23 | asking twice for a type yields the identical instance and an unchanged unit |
| UnitOfWork.UnitsShareNoRepository | HazeClue.Infrastructure/Repositories/UnitOfWork.cs:9-21 | two distinct units never hand out the same repository instance, even when they share a context |
| UnitOfWork.RequestAllCachesNames | HazeClue.Infrastructure/Repositories/UnitOfWork.cs:16-24 | after any run of requests the cache holds the old names plus every requested name, old entries unchanged, every entry bound to the unit's context |
| UnitOfWork.CacheSizeIsDistinctNames | HazeClue.Infrastructure/Repositories/UnitOfWork.cs:9-24 | a fresh unit's cache holds exactly one repository per distinct short name requested |
| UnitOfWork.CompleteAsync | HazeClue.Infrastructure/Repositories/UnitOfWork.cs:31-34 | a successful commit reports the number of staged changes and leaves none pending; a failed one changes nothing, so nothing staged becomes durable; with nothing staged it reports 0 and changes nothing |
| UnitOfWork.StageVia | HazeClue.Infrastructure/Repositories/GenericRepository.cs:9-29 | a staging call on a repository bound to the unit's context appends its changes to the unit's one session and changes nothing else; in the model it fails exactly for a disposed or unmapped context |
| UnitOfWork.DisposeAsync | HazeClue.Infrastructure/Repositories/UnitOfWork.cs:26-29 | disposal marks the session disposed and keeps the tables, the staged changes and the cache |
| UnitOfWork.DisposedUnitFailsFast | HazeClue.Infrastructure/Repositories/UnitOfWork.cs:26-34 | after disposal a commit, every read (by key, list, list by specification, single by specification) and every staging call fail with the disposed-context error |
| UnitOfWork.CompleteCoversEveryRepository | HazeClue.Infrastructure/Repositories/UnitOfWork.cs:11-34 | repositories for two types from one unit are bound to its context; inserts through them land in the unit's one session, so one commit writes both |
| UnitOfWork.AddCompleteFind | HazeClue.Infrastructure/Repositories/UnitOfWork.cs:31-34 | add through the unit's repository, commit, and look up the generated key: the commit reports one change and the lookup returns the added entity under that key |

## Left out

- Async/`Task` plumbing: every operation is modelled as a synchronous function.
- Deferred execution is left out: a query is evaluated eagerly, which gives the same rows.
- Expression trees are left out: criteria are plain Dafny predicates and simple includes are relation names.
- EF Core itself is not part of this model; its behaviour is reduced to what the layer relies on.
  - `Include` only marks a relation as loaded. The related data is not modelled.
  - `SaveChangesAsync` takes the database's verdict as a parameter, `accepted`. Connectivity and constraint failures are outside the model.
  - A commit applies the staged changes in order. An update or delete of a missing key is a concurrency conflict.
  - A failed commit writes nothing and keeps the changes pending.
  - An inserted row gets the key one above the table's largest key, whatever key the added entity already carries. EF would send a key the entity already carries, and a SQL Server identity column rejects it; the model discards it. The generated key stands in for an identity column, with one more difference: after the row with the largest key is deleted, its key is handed out again, which a SQL Server identity never does. Keys are also unbounded: a C# `int` key, and the identity column behind it, stops at 2^31-1, while `NextId` keeps counting.
  - A commit with nothing staged does not reach the database; it reports 0 whatever `accepted` says.
- DbContext.SaveChanges: the staged changes are a plain log, not EF's change tracker, so EF's merging of entries is not modelled. This changes outcomes, not only the count. In EF, deleting an entity that is still staged as an insert drops the insert, so the commit writes nothing for it and succeeds. In the model the log holds both changes: the insert gets a generated key, and the delete then looks for the entity's old key. When no stored row has that key, the whole commit fails with a concurrency conflict that also blocks every other staged change. When a stored row has it, the model deletes that unrelated stored row and the commit succeeds, keeping the inserted row under its new key. Repeated updates of one entity count once in EF and once per update here.
- UnitOfWork.StageVia: the throw EF raises at staging time is not modelled. EF throws when an update or delete carries an instance whose key is already tracked through another instance, for example after `GetByIdAsync`. In the model the staging call succeeds, so staging fails only for a disposed or unmapped context.
- GenericRepository.AddAsync: EF's staging-time throw for an entity whose key is already tracked through another instance is not modelled; the model stages the insert. Staging fails only for a disposed or unmapped context.
- GenericRepository.Delete: EF's staging-time throw for an instance whose key is already tracked through another instance is not modelled; the model stages the removal. Staging fails only for a disposed or unmapped context.
- GenericRepository.RemoveRange: EF's staging-time throw for an instance whose key is already tracked through another instance is not modelled; the model stages every removal. Staging fails only for a disposed or unmapped context.
- GenericRepository.Update: EF's rule that an entity with an unset key (0) is tracked as Added is not modelled, and neither is its staging-time throw for an instance whose key is already tracked through another instance. EF inserts such an entity at commit; the model stages a modification, which fails the commit with a concurrency conflict when no row has that key.
- GenericRepository.GetByIdAsync: looks only in the committed table. `FindAsync` first checks the entities the context already tracks. That lookup, and so the visibility of an uncommitted add, is not modelled.
- GenericRepository.GetEntityWithSpecAsync: only the key of a row read with tracking is recorded. Tracked state beyond the key is not modelled. Identity resolution is not modelled either: EF returns the already-tracked instance for a key, possibly with unsaved edits, while the model returns the committed row. A complex include that itself turns tracking off is not modelled.
- Row order: HazeClue's queries carry no ordering, so a database may return rows in any order. The model fixes the table's sequence order. GenericRepository.EntityWithSpecIsHeadOfAll and GenericRepository.DefaultSpecReadsAll state equalities that depend on this fixed order; GenericRepository.FirstWithId picks the first matching row in it.
- Units sharing a context: each unit value carries its own copy of the session. In HazeClue two units built over one `DbContext` share that object, so a write staged through one is visible to the other. This aliasing is not modelled; within one unit every repository shares the unit's session.
- Null constructor arguments and null list elements are left out. A null criteria passed to a constructor is harmless: the evaluator skips a null criteria, so the result is the same specification as `Default()`. A null `includeQuery`, or a null element inside an include list, would make EF or the evaluator throw. The model takes these arguments as non-null.
- Disposal lifetime is left out. Only its effect is modelled: store access after `DisposeAsync` fails.
- Framework wiring is left out because it has no logic of its own. This covers service registration, JWT, Swagger, Identity options and API versioning (`HazeClue.UI/StartupExtensions/ConfigureServicesExtension.cs`), the host pipeline (`HazeClue.UI/Program.cs`), the empty controller base (`HazeClue.UI/Controllers/v1/CustomControllerBase.cs`), and the table mapping and decimal precision convention (`HazeClue.Infrastructure/DbContext/ApplicationDbContext.cs`).

=== FILE: base_specification.dfy ===
/** `BaseSpecification<T>`: three constructors fixing which fields start out
    populated, and the appends callers make to its two include lists. */
module BaseSpecification {

  import opened Wrappers
  import opened Domain
  import opened Contracts
  import opened SpecificationEvaluator

  /** `new BaseSpecification()`: no criteria, both include lists empty; it
      therefore leaves every query exactly as it was. */
  function Default(): (spec: Specification)
    ensures spec.criteria.None?
    ensures spec.includes == Some([])
    ensures spec.complexIncludes.Some? && |spec.complexIncludes.value| == 0
    ensures forall q :: GetQuery(q, spec) == q
  {
    Specification(None, Some([]), Some([]))
  }

  /** `new BaseSpecification(criteria)`: the criteria and two empty lists; the
      query it yields keeps exactly the rows the criteria accepts. */
  function FromCriteria(criteria: Entity -> bool): (spec: Specification)
    ensures spec.criteria == Some(criteria)
    ensures spec.includes == Some([])
    ensures spec.complexIncludes.Some? && |spec.complexIncludes.value| == 0
    ensures forall q :: GetQuery(q, spec).loaded == q.loaded
    ensures forall q, e :: e in GetQuery(q, spec).rows <==> e in q.rows && criteria(e)
  {
    Specification(Some(criteria), Some([]), Some([]))
  }

  /** `new BaseSpecification(criteria, includeQuery)`: the criteria, no simple
      includes, and `includeQuery` as the only complex include, which then runs
      on the filtered query. */
  function FromCriteriaAndInclude(criteria: Entity -> bool, includeQuery: Query -> Query): (spec: Specification)
    ensures spec.criteria == Some(criteria)
    ensures spec.includes == Some([])
    ensures spec.complexIncludes.Some? && spec.complexIncludes.value == [includeQuery]
    ensures forall q :: GetQuery(q, spec) == includeQuery(Where(q, criteria))
  {
    assert forall q :: ApplyComplexIncludes(q, [includeQuery]) == includeQuery(q) by {
      forall q ensures ApplyComplexIncludes(q, [includeQuery]) == includeQuery(q) {
        assert [includeQuery][1..] == [];
      }
    }
    Specification(Some(criteria), Some([]), Some([includeQuery]))
  }

  /** `spec.Includes.Add(rel)`: throws when the list was set to null; otherwise
      appends to the simple includes and leaves the other fields alone. */
  function AddInclude(spec: Specification, rel: Relation): (r: Result<Specification, Error>)
    ensures r.Success? <==> spec.includes.Some?
    ensures r.Failure? ==> r.error == NullReference
    ensures r.Success? ==> r.value.includes == Some(spec.includes.value + [rel])
    ensures r.Success? ==> r.value.criteria == spec.criteria && r.value.complexIncludes == spec.complexIncludes
  {
    if spec.includes.None? then Failure(NullReference)
    else Success(spec.(includes := Some(spec.includes.value + [rel])))
  }

  /** `spec.ComplexIncludes.Add(f)`: throws when the list was set to null;
      otherwise appends to the complex includes and leaves the other fields alone. */
  function AddComplexInclude(spec: Specification, f: Query -> Query): (r: Result<Specification, Error>)
    ensures r.Success? <==> spec.complexIncludes.Some?
    ensures r.Failure? ==> r.error == NullReference
    ensures r.Success? ==> r.value.complexIncludes == Some(spec.complexIncludes.value + [f])
    ensures r.Success? ==> r.value.criteria == spec.criteria && r.value.includes == spec.includes
  {
    if spec.complexIncludes.None? then Failure(NullReference)
    else Success(spec.(complexIncludes := Some(spec.complexIncludes.value + [f])))
  }

  /** An appended simple include changes no row of the result and adds its
      relation to the loaded ones. */
  lemma AddIncludeLoadsRelation(spec: Specification, rel: Relation, q: Query)
    requires spec.includes.Some? && !HasAny(spec.complexIncludes)
    ensures AddInclude(spec, rel).Success?
    ensures GetQuery(q, AddInclude(spec, rel).value).rows == GetQuery(q, spec).rows
    ensures GetQuery(q, AddInclude(spec, rel).value).loaded == GetQuery(q, spec).loaded + {rel}
  {
  }

  /** An appended complex include runs last, on what the specification yielded before. */
  lemma AddComplexIncludeRunsLast(spec: Specification, f: Query -> Query, q: Query)
    requires spec.complexIncludes.Some?
    ensures AddComplexInclude(spec, f).Success?
    ensures GetQuery(q, AddComplexInclude(spec, f).value) == f(GetQuery(q, spec))
  {
    var fs := spec.complexIncludes.value;
    var spec' := AddComplexInclude(spec, f).value;
    var filtered := if spec.criteria.Some? then Where(q, spec.criteria.value) else q;
    var included := if HasAny(spec.includes) then ApplyIncludes(filtered, spec.includes.value) else filtered;
    ApplyComplexIncludesSnoc(included, fs, f);
    if |fs| == 0 {
      assert fs + [f] == [f];
    }
  }
}

=== FILE: contracts.dfy ===
/** The shape of `ISpecification<T>`: a filter and two lists of eager-load
    instructions. Every field is a settable reference, so each may be null,
    which `None` stands for. */
module Contracts {

  import opened Wrappers
  import opened Domain

  datatype Specification = Specification(
    criteria: Option<Entity -> bool>,
    includes: Option<seq<Relation>>,
    complexIncludes: Option<seq<Query -> Query>>)

  /** `list?.Any() == true`: the list is non-null and has an element. */
  predicate HasAny<X>(list: Option<seq<X>>) {
    list.Some? && |list.value| > 0
  }

  /** The elements of a list that may be null, a null list reading as empty. */
  function OrEmpty<X>(list: Option<seq<X>>): (xs: seq<X>)
    ensures |xs| > 0 <==> HasAny(list)
  {
    if list.Some? then list.value else []
  }

  /** The relations a specification's simple includes name. */
  function IncludedRelations(spec: Specification): set<Relation> {
    set rel | rel in OrEmpty(spec.includes)
  }

  /** Whether the specification's filter admits `e`; a null filter admits every entity. */
  predicate Admits(spec: Specification, e: Entity) {
    spec.criteria.None? || spec.criteria.value(e)
  }
}

=== FILE: db_context.dfy ===
/** The store session the repositories share (`ApplicationDbContext` as the
    repositories use it): committed tables per entity type, the log of staged
    changes, the keys of tracked entities, and whether it has been disposed.
    The database itself is abstract: whether it accepts a transaction is a
    parameter of `SaveChanges`. */
module DbContext {

  import opened Wrappers
  import opened Domain

  datatype Change =
    | Added(entityType: EntityType, entity: Entity)
    | Modified(entityType: EntityType, entity: Entity)
    | Deleted(entityType: EntityType, entity: Entity)

  /** `tracked` records which keys reads have attached to the change tracker.
      It is informational: no operation of this layer reads it. */
  datatype Session = Session(
    tables: map<EntityType, seq<Entity>>,
    pending: seq<Change>,
    tracked: set<(EntityType, int)>,
    disposed: bool)

  /** An operation's result together with the session after it. */
  datatype Outcome<+A> = Outcome(result: Result<A, Error>, session: Session)

  /** Every committed table has unique keys. */
  ghost predicate ValidTables(tables: map<EntityType, seq<Entity>>) {
    forall t :: t in tables ==> UniqueIds(tables[t])
  }

  /** `Set<T>()` used for a read or a staging call: the committed rows, or the
      error the context raises. */
  function Set(s: Session, t: EntityType): (r: Result<seq<Entity>, Error>)
    ensures r.Success? <==> !s.disposed && t in s.tables
    ensures r.Success? ==> r.value == s.tables[t]
    ensures s.disposed ==> r == Failure(ContextDisposed)
    ensures !s.disposed && t !in s.tables ==> r == Failure(NotInModel(t))
  {
    if s.disposed then Failure(ContextDisposed)
    else if t !in s.tables then Failure(NotInModel(t))
    else Success(s.tables[t])
  }

  /** Record a change in the session without touching the committed tables. */
  function Stage(s: Session, c: Change): (r: Result<Session, Error>)
    ensures r.Success? <==> Set(s, c.entityType).Success?
    ensures r.Failure? ==> r.error == Set(s, c.entityType).error
    ensures r.Success? ==> r.value.pending == s.pending + [c]
    ensures r.Success? ==> r.value.tables == s.tables && r.value.tracked == s.tracked && !r.value.disposed
  {
    var _ :- Set(s, c.entityType);
    Success(s.(pending := s.pending + [c]))
  }

  /** The largest key in a table, or 0 for a table without positive keys. */
  function MaxId(rows: seq<Entity>): (m: int)
    ensures m >= 0
    ensures forall i :: 0 <= i < |rows| ==> rows[i].id <= m
  {
    if |rows| == 0 then 0
    else
      var rest := MaxId(rows[1..]);
      if rows[0].id > rest then rows[0].id else rest
  }

  /** The key the store generates for an inserted row: above every key in use. */
  function NextId(rows: seq<Entity>): (id: int)
    ensures id > 0
    ensures forall i :: 0 <= i < |rows| ==> rows[i].id < id
  {
    MaxId(rows) + 1
  }

  predicate HasId(rows: seq<Entity>, id: int) {
    exists i :: 0 <= i < |rows| && rows[i].id == id
  }

  /** Overwrite the row whose key is `e.id` with `e`. */
  function Replace(rows: seq<Entity>, e: Entity): (r: seq<Entity>)
    ensures |r| == |rows|
    ensures forall i :: 0 <= i < |r| ==> r[i].id == rows[i].id
    ensures forall i :: 0 <= i < |r| ==> r[i] == if rows[i].id == e.id then e else rows[i]
  {
    seq(|rows|, i requires 0 <= i < |rows| => if rows[i].id == e.id then e else rows[i])
  }

  lemma AppendFreshKeepsUniqueIds(rows: seq<Entity>, e: Entity)
    requires UniqueIds(rows)
    requires forall i :: 0 <= i < |rows| ==> rows[i].id < e.id
    ensures UniqueIds(rows + [e])
  {
  }

  /** The predicate a delete filters the table with: every row but the key's. */
  function KeyIsNot(id: int): Entity -> bool {
    (row: Entity) => row.id != id
  }

  /** Apply one change to the committed tables. An insert receives a generated
      key; an update or delete of a key the table lacks is a concurrency conflict
      (no row affected). */
  function ApplyChange(tables: map<EntityType, seq<Entity>>, c: Change): (r: Result<map<EntityType, seq<Entity>>, Error>)
    ensures r.Success? ==> r.value.Keys == tables.Keys
    ensures r.Success? && ValidTables(tables) ==> ValidTables(r.value)
    ensures r.Success? ==> forall t :: t in tables && t != c.entityType ==> r.value[t] == tables[t]
  {
    var t := c.entityType;
    if t !in tables then Failure(NotInModel(t))
    else
      var rows := tables[t];
      match c
      case Added(_, e) =>
        var inserted := e.(id := NextId(rows));
        assert UniqueIds(rows) ==> UniqueIds(rows + [inserted]) by {
          if UniqueIds(rows) { AppendFreshKeepsUniqueIds(rows, inserted); }
        }
        Success(tables[t := rows + [inserted]])
      case Modified(_, e) =>
        if !HasId(rows, e.id) then Failure(ConcurrencyConflict(t, e.id))
        else Success(tables[t := Replace(rows, e)])
      case Deleted(_, e) =>
        if !HasId(rows, e.id) then Failure(ConcurrencyConflict(t, e.id))
        else
          var p := KeyIsNot(e.id);
          assert UniqueIds(rows) ==> UniqueIds(Filter(rows, p)) by {
            if UniqueIds(rows) { FilterKeepsUniqueIds(rows, p); }
          }
          Success(tables[t := Filter(rows, p)])
  }

  /** Apply the changes in staging order; the first failing one aborts the lot. */
  function ApplyChanges(tables: map<EntityType, seq<Entity>>, changes: seq<Change>): (r: Result<map<EntityType, seq<Entity>>, Error>)
    ensures r.Success? ==> r.value.Keys == tables.Keys
    ensures r.Success? && ValidTables(tables) ==> ValidTables(r.value)
    decreases |changes|
  {
    if |changes| == 0 then Success(tables)
    else
      match ApplyChange(tables, changes[0])
      case Failure(err) => Failure(err)
      case Success(next) => ApplyChanges(next, changes[1..])
  }

  /** `SaveChangesAsync`: write every staged change as one transaction and return
      how many were written. With nothing staged the store is not contacted and
      the count is 0. Otherwise `accepted` stands for the database's verdict. On
      any failure nothing is written and the staged changes stay pending. */
  function SaveChanges(s: Session, accepted: bool): (o: Outcome<nat>)
    ensures o.result.Success? <==>
              !s.disposed && (|s.pending| == 0 || accepted) && ApplyChanges(s.tables, s.pending).Success?
    ensures o.result.Success? ==> o.result.value == |s.pending| && o.session.pending == []
    ensures o.result.Success? ==> o.session.tables == ApplyChanges(s.tables, s.pending).value
    ensures o.result.Success? ==> o.session.tracked == s.tracked && !o.session.disposed
    ensures o.result.Success? && ValidTables(s.tables) ==> ValidTables(o.session.tables)
    ensures o.result.Failure? ==> o.session == s
    ensures s.disposed ==> o.result == Failure(ContextDisposed)
    ensures !s.disposed && |s.pending| == 0 ==> o == Outcome(Success(0), s)
    ensures !s.disposed && |s.pending| > 0 && !accepted ==> o.result == Failure(CommitRejected)
  {
    if s.disposed then Outcome(Failure(ContextDisposed), s)
    else if |s.pending| == 0 then Outcome(Success(0), s)
    else if !accepted then Outcome(Failure(CommitRejected), s)
    else
      match ApplyChanges(s.tables, s.pending)
      case Failure(err) => Outcome(Failure(err), s)
      case Success(tables) => Outcome(Success(|s.pending|), s.(tables := tables, pending := []))
  }

  /** `DisposeAsync`: the session can no longer reach the store. */
  function Dispose(s: Session): (r: Session)
    ensures r.disposed
    ensures r.tables == s.tables && r.pending == s.pending && r.tracked == s.tracked
  {
    s.(disposed := true)
  }

  /** A single staged insert commits as exactly one new row, with a key no
      other row of its table has, and leaves every other table alone. */
  lemma CommitSingleInsert(s: Session, t: EntityType, e: Entity)
    requires !s.disposed && t in s.tables && s.pending == [Added(t, e)]
    ensures var o := SaveChanges(s, true);
      && o.result == Success(1)
      && o.session.tables == s.tables[t := s.tables[t] + [e.(id := NextId(s.tables[t]))]]
      && o.session.pending == []
  {
    var inserted := e.(id := NextId(s.tables[t]));
    assert ApplyChange(s.tables, Added(t, e)) == Success(s.tables[t := s.tables[t] + [inserted]]);
    assert s.pending[1..] == [];
    assert ApplyChanges(s.tables, s.pending) == ApplyChanges(s.tables[t := s.tables[t] + [inserted]], []);
  }

  /** Two staged inserts, into the same table or two, commit together as two
      changes. */
  lemma CommitTwoInserts(s: Session, t1: EntityType, e1: Entity, t2: EntityType, e2: Entity)
    requires !s.disposed && t1 in s.tables && t2 in s.tables
    requires s.pending == [Added(t1, e1), Added(t2, e2)]
    ensures SaveChanges(s, true).result == Success(2)
  {
    var after1 := ApplyChange(s.tables, Added(t1, e1));
    assert after1.Success?;
    var after2 := ApplyChange(after1.value, Added(t2, e2));
    assert after2.Success?;
    assert s.pending[1..] == [Added(t2, e2)];
    assert s.pending[1..][1..] == [];
    assert ApplyChanges(s.tables, s.pending) == ApplyChanges(after1.value, [Added(t2, e2)]);
    assert ApplyChanges(after1.value, [Added(t2, e2)]) == ApplyChanges(after2.value, []);
  }

  /** A single staged update commits when its key is stored, overwriting that
      row in place (with unique keys: exactly the one row at its position), and
      is a concurrency conflict that writes nothing when the key is missing. */
  lemma CommitSingleUpdate(s: Session, t: EntityType, e: Entity)
    requires !s.disposed && t in s.tables && s.pending == [Modified(t, e)]
    ensures var o := SaveChanges(s, true);
      HasId(s.tables[t], e.id) ==>
        && o.result == Success(1)
        && o.session.tables == s.tables[t := Replace(s.tables[t], e)]
        && o.session.pending == []
    ensures var rows := s.tables[t];
      UniqueIds(rows) ==> forall k :: 0 <= k < |rows| && rows[k].id == e.id ==> Replace(rows, e) == rows[k := e]
    ensures var o := SaveChanges(s, true);
      !HasId(s.tables[t], e.id) ==> o.result == Failure(ConcurrencyConflict(t, e.id)) && o.session == s
  {
    assert s.pending[1..] == [];
    var rows := s.tables[t];
    if HasId(rows, e.id) {
      assert ApplyChanges(s.tables, s.pending) == ApplyChanges(s.tables[t := Replace(rows, e)], []);
    }
    forall k | 0 <= k < |rows| && rows[k].id == e.id && UniqueIds(rows)
      ensures Replace(rows, e) == rows[k := e]
    {
      assert forall i :: 0 <= i < |rows| && i != k ==> rows[i].id != e.id;
    }
  }

  /** Filtering out a key no row has keeps every row. */
  lemma KeyAbsentKeepsAll(part: seq<Entity>, id: int)
    requires forall i :: 0 <= i < |part| ==> part[i].id != id
    ensures Filter(part, KeyIsNot(id)) == part
  {
    FilterKeepsAll(part, KeyIsNot(id));
  }

  /** With unique keys, filtering a table by "not this row's key" removes that
      row alone and keeps the others in order. */
  lemma {:induction false} FilterRemovesOnly(rows: seq<Entity>, k: int)
    requires UniqueIds(rows) && 0 <= k < |rows|
    ensures Filter(rows, KeyIsNot(rows[k].id)) == rows[..k] + rows[k + 1..]
  {
    var id := rows[k].id;
    var p := KeyIsNot(id);
    var before, after := rows[..k], rows[k + 1..];
    assert rows == before + ([rows[k]] + after);
    FilterAppend(before, [rows[k]] + after, p);
    FilterAppend([rows[k]], after, p);
    assert Filter([rows[k]], p) == [] by {
      assert !p(rows[k]);
      assert [rows[k]][1..] == [];
    }
    forall i | 0 <= i < |before| ensures before[i].id != id {
      assert before[i] == rows[i];
    }
    KeyAbsentKeepsAll(before, id);
    forall i | 0 <= i < |after| ensures after[i].id != id {
      assert after[i] == rows[k + 1 + i];
    }
    KeyAbsentKeepsAll(after, id);
  }

  /** A single staged delete commits when its key is stored: no row keeps the
      key, and with unique keys the table is the old one with exactly that row
      cut out, the others in order. A missing key is a concurrency conflict
      that writes nothing. */
  lemma CommitSingleDelete(s: Session, t: EntityType, e: Entity)
    requires !s.disposed && t in s.tables && s.pending == [Deleted(t, e)]
    ensures var o := SaveChanges(s, true);
      HasId(s.tables[t], e.id) ==>
        && o.result == Success(1)
        && o.session.pending == []
        && t in o.session.tables
        && !HasId(o.session.tables[t], e.id)
        && (forall u :: u in s.tables && u != t ==> u in o.session.tables && o.session.tables[u] == s.tables[u])
    ensures var o := SaveChanges(s, true);
      var rows := s.tables[t];
      UniqueIds(rows) ==> forall k :: 0 <= k < |rows| && rows[k].id == e.id ==>
        o.result.Success? && o.session.tables[t] == rows[..k] + rows[k + 1..]
    ensures var o := SaveChanges(s, true);
      !HasId(s.tables[t], e.id) ==> o.result == Failure(ConcurrencyConflict(t, e.id)) && o.session == s
  {
    assert s.pending[1..] == [];
    var rows := s.tables[t];
    var p := KeyIsNot(e.id);
    if HasId(rows, e.id) {
      var kept := Filter(rows, p);
      assert ApplyChanges(s.tables, s.pending) == ApplyChanges(s.tables[t := kept], []);
      FilterMembers(rows, p);
      assert !HasId(kept, e.id) by {
        forall i | 0 <= i < |kept| ensures kept[i].id != e.id {
          assert kept[i] in kept;
        }
      }
      forall k | 0 <= k < |rows| && rows[k].id == e.id && UniqueIds(rows)
        ensures kept == rows[..k] + rows[k + 1..]
      {
        FilterRemovesOnly(rows, k);
      }
    }
  }
}

=== FILE: domain.dfy ===
/** Entities, queries over them, and the errors the data-access layer can raise. */
module Domain {

  /** A runtime entity type. `name` is the short type name (`typeof(T).Name`);
      `ns` stands for everything else that identifies the type (its declaring
      type, namespace and assembly), so two types may share a short name. */
  datatype EntityType = EntityType(ns: string, name: string)

  /** A persisted entity (a subclass of `BaseClass`): its integer key and its
      other column values. */
  datatype Entity = Entity(id: int, fields: map<string, string>)

  /** The navigation path named by a simple include expression (`o => o.Customer`). */
  type Relation = string

  /** An `IQueryable<T>` once executed: the rows it yields, in order, and the
      relations that are eagerly loaded on them. */
  datatype Query = Query(rows: seq<Entity>, loaded: set<Relation>)

  /** The errors the layer lets escape. */
  datatype Error =
    | NotInModel(entityType: EntityType)                 // Set<T>() for a type the context does not map
    | ContextDisposed                                    // any store access after DisposeAsync
    | NullReference                                      // appending to a list that was set to null
    | InvalidCast(requested: EntityType, cached: EntityType) // the cached repository is for another type
    | ConcurrencyConflict(entityType: EntityType, id: int)   // update or delete of a row that is gone
    | CommitRejected                                     // the store refused the transaction

  /** The whole table as the starting point of a query, nothing loaded yet. */
  function FromTable(rows: seq<Entity>): Query {
    Query(rows, {})
  }

  /** Keys are unique within a table. */
  ghost predicate UniqueIds(rows: seq<Entity>) {
    forall i, j :: 0 <= i < j < |rows| ==> rows[i].id != rows[j].id
  }

  /** `Enumerable.Where`: the rows satisfying `p`, in input order. */
  function Filter(rows: seq<Entity>, p: Entity -> bool): (kept: seq<Entity>)
    ensures |kept| <= |rows|
    decreases |rows|
  {
    if |rows| == 0 then [] else (if p(rows[0]) then [rows[0]] else []) + Filter(rows[1..], p)
  }

  /** A filter keeps each row satisfying `p` as often as the input has it, and
      no other row. */
  lemma {:induction false} FilterCounts(rows: seq<Entity>, p: Entity -> bool)
    ensures forall e :: multiset(Filter(rows, p))[e] == if p(e) then multiset(rows)[e] else 0
    decreases |rows|
  {
    if |rows| > 0 {
      assert rows == [rows[0]] + rows[1..];
      FilterCounts(rows[1..], p);
    }
  }

  /** A row is kept exactly when it is in the input and satisfies `p`. */
  lemma FilterMembers(rows: seq<Entity>, p: Entity -> bool)
    ensures forall e :: e in Filter(rows, p) <==> e in rows && p(e)
  {
  }

  /** Filtering distributes over concatenation: the kept rows stay in input order. */
  lemma {:induction false} FilterAppend(a: seq<Entity>, b: seq<Entity>, p: Entity -> bool)
    ensures Filter(a + b, p) == Filter(a, p) + Filter(b, p)
    decreases |a|
  {
    if |a| == 0 {
      assert a + b == b;
    } else {
      var head: seq<Entity> := if p(a[0]) then [a[0]] else [];
      assert (a + b)[0] == a[0];
      assert (a + b)[1..] == a[1..] + b;
      assert Filter(a + b, p) == head + Filter(a[1..] + b, p);
      FilterAppend(a[1..], b, p);
      assert Filter(a, p) == head + Filter(a[1..], p);
      assert head + (Filter(a[1..], p) + Filter(b, p)) == (head + Filter(a[1..], p)) + Filter(b, p);
    }
  }

  /** Filtering drops nothing exactly when every row satisfies the predicate. */
  lemma {:induction false} FilterKeepsAllIff(rows: seq<Entity>, p: Entity -> bool)
    ensures Filter(rows, p) == rows <==> forall i :: 0 <= i < |rows| ==> p(rows[i])
  {
    if forall i :: 0 <= i < |rows| ==> p(rows[i]) {
      FilterKeepsAll(rows, p);
    } else {
      var i :| 0 <= i < |rows| && !p(rows[i]);
      FilterMembers(rows, p);
      assert rows[i] in rows && rows[i] !in Filter(rows, p);
    }
  }

  lemma {:induction false} FilterKeepsAll(rows: seq<Entity>, p: Entity -> bool)
    requires forall i :: 0 <= i < |rows| ==> p(rows[i])
    ensures Filter(rows, p) == rows
  {
    if |rows| > 0 {
      FilterKeepsAll(rows[1..], p);
    }
  }

  /** A filter keeps unique keys unique. */
  lemma {:induction false} FilterKeepsUniqueIds(rows: seq<Entity>, p: Entity -> bool)
    requires UniqueIds(rows)
    ensures UniqueIds(Filter(rows, p))
  {
    if |rows| > 0 {
      FilterKeepsUniqueIds(rows[1..], p);
      var rest := Filter(rows[1..], p);
      FilterMembers(rows[1..], p);
      forall j | 0 <= j < |rest|
        ensures rest[j].id != rows[0].id
      {
        assert rest[j] in rows[1..];
      }
    }
  }

  /** `Include`: mark a relation as eagerly loaded; which rows, and in which
      order, is left alone. */
  function Include(q: Query, rel: Relation): (r: Query)
    ensures r.rows == q.rows
    ensures rel in r.loaded && q.loaded <= r.loaded && r.loaded - q.loaded <= {rel}
  {
    q.(loaded := q.loaded + {rel})
  }

  /** `Where` on a query: filter the rows, keep the loaded relations. */
  function Where(q: Query, p: Entity -> bool): (r: Query)
    ensures r.loaded == q.loaded
    ensures forall e :: e in r.rows <==> e in q.rows && p(e)
  {
    FilterMembers(q.rows, p);
    q.(rows := Filter(q.rows, p))
  }
}

=== FILE: evaluator.dfy ===
/** `SpecificationEvalutor<T>.GetQuery`: turn a base query and a specification
    into the query that filters, then applies the simple includes, then the
    complex includes. EF Core defers execution; the result does not depend on
    when it runs, so the model evaluates eagerly. */
module SpecificationEvaluator {

  import opened Wrappers
  import opened Domain
  import opened Contracts

  /** `Includes.Aggregate(query, (current, e) => current.Include(e))`: a left fold of
      `Include` over the list. Rows are untouched; every listed relation is loaded. */
  function ApplyIncludes(q: Query, rels: seq<Relation>): (r: Query)
    ensures r.rows == q.rows
    ensures r.loaded == q.loaded + (set rel | rel in rels)
    decreases |rels|
  {
    if |rels| == 0 then q
    else
      assert forall rel :: rel in rels <==> rel == rels[0] || rel in rels[1..];
      ApplyIncludes(Include(q, rels[0]), rels[1..])
  }

  /** `ComplexIncludes.Aggregate(query, (current, f) => f(current))`: a left fold in
      which each transform receives the previous one's output. */
  function ApplyComplexIncludes(q: Query, fs: seq<Query -> Query>): Query
    decreases |fs|
  {
    if |fs| == 0 then q else ApplyComplexIncludes(fs[0](q), fs[1..])
  }

  /** The nested application fN(... f2(f1(q))), written from the last transform
      inward: the reference the left fold is compared with. */
  function Nested(q: Query, fs: seq<Query -> Query>): Query
    decreases |fs|
  {
    if |fs| == 0 then q else fs[|fs| - 1](Nested(q, fs[..|fs| - 1]))
  }

  /** Appending a transform to the list applies it to the previous result. */
  lemma {:induction false} ApplyComplexIncludesSnoc(q: Query, fs: seq<Query -> Query>, f: Query -> Query)
    ensures ApplyComplexIncludes(q, fs + [f]) == f(ApplyComplexIncludes(q, fs))
    decreases |fs|
  {
    if |fs| == 0 {
      assert fs + [f] == [f];
    } else {
      assert (fs + [f])[1..] == fs[1..] + [f];
      ApplyComplexIncludesSnoc(fs[0](q), fs[1..], f);
    }
  }

  /** The left fold over the complex includes is exactly fN(... f2(f1(q))). */
  lemma {:induction false} ComplexIncludesNest(q: Query, fs: seq<Query -> Query>)
    ensures ApplyComplexIncludes(q, fs) == Nested(q, fs)
    decreases |fs|
  {
    if |fs| > 0 {
      var init := fs[..|fs| - 1];
      assert fs == init + [fs[|fs| - 1]];
      ComplexIncludesNest(q, init);
      ApplyComplexIncludesSnoc(q, init, fs[|fs| - 1]);
    }
  }

  /** `GetQuery`: filter if there is a criteria, then the simple includes if the
      list is non-null and non-empty, then the complex includes likewise. */
  function GetQuery(input: Query, spec: Specification): (r: Query)
    // identity law: no criteria and no includes give back the input
    ensures spec.criteria.None? && !HasAny(spec.includes) && !HasAny(spec.complexIncludes) ==> r == input
    // without complex includes the rows are exactly the admitted input rows ...
    ensures !HasAny(spec.complexIncludes) ==>
              forall e :: multiset(r.rows)[e] == if Admits(spec, e) then multiset(input.rows)[e] else 0
    ensures !HasAny(spec.complexIncludes) ==>
              forall e :: e in r.rows <==> e in input.rows && Admits(spec, e)
    // ... in input order, all of them when there is no criteria ...
    ensures !HasAny(spec.complexIncludes) && spec.criteria.None? ==> r.rows == input.rows
    // ... and every listed relation is loaded
    ensures !HasAny(spec.complexIncludes) ==> r.loaded == input.loaded + IncludedRelations(spec)
  {
    assert spec.criteria.Some? ==>
             forall e :: multiset(Filter(input.rows, spec.criteria.value))[e]
                           == if spec.criteria.value(e) then multiset(input.rows)[e] else 0 by {
      if spec.criteria.Some? { FilterCounts(input.rows, spec.criteria.value); }
    }
    var filtered := if spec.criteria.Some? then Where(input, spec.criteria.value) else input;
    var included := if HasAny(spec.includes) then ApplyIncludes(filtered, spec.includes.value) else filtered;
    if HasAny(spec.complexIncludes) then ApplyComplexIncludes(included, spec.complexIncludes.value) else included
  }

  /** A null include list is evaluated exactly like an empty one. */
  lemma NullIncludesAreEmpty(input: Query, spec: Specification)
    ensures GetQuery(input, spec.(includes := None)) == GetQuery(input, spec.(includes := Some([])))
    ensures GetQuery(input, spec.(complexIncludes := None)) == GetQuery(input, spec.(complexIncludes := Some([])))
  {
  }

  /** The order of the simple includes does not change the result. */
  lemma IncludeOrderIrrelevant(q: Query, a: seq<Relation>, b: seq<Relation>)
    requires forall rel :: rel in a <==> rel in b
    ensures ApplyIncludes(q, a) == ApplyIncludes(q, b)
  {
    assert (set rel | rel in a) == (set rel | rel in b);
  }

  // A specification read as a plan of steps run one after another: the
  // describe-then-evaluate reading of the evaluator.

  datatype Step = Keep(p: Entity -> bool) | Load(rel: Relation) | Transform(f: Query -> Query)

  /** Position of a step kind in the evaluator's fixed stage order. */
  function StageRank(step: Step): nat {
    match step
    case Keep(_) => 0
    case Load(_) => 1
    case Transform(_) => 2
  }

  function Perform(q: Query, step: Step): Query {
    match step
    case Keep(p) => Where(q, p)
    case Load(rel) => Include(q, rel)
    case Transform(f) => f(q)
  }

  /** Run steps in order, each on the previous result. */
  function Run(q: Query, steps: seq<Step>): Query
    decreases |steps|
  {
    if |steps| == 0 then q else Run(Perform(q, steps[0]), steps[1..])
  }

  function Loads(rels: seq<Relation>): (steps: seq<Step>)
    ensures |steps| == |rels|
    ensures forall i :: 0 <= i < |steps| ==> steps[i] == Load(rels[i])
  {
    seq(|rels|, i requires 0 <= i < |rels| => Load(rels[i]))
  }

  function Transforms(fs: seq<Query -> Query>): (steps: seq<Step>)
    ensures |steps| == |fs|
    ensures forall i :: 0 <= i < |steps| ==> steps[i].Transform? && steps[i].f == fs[i]
  {
    seq(|fs|, i requires 0 <= i < |fs| => Transform(fs[i]))
  }

  /** The steps a specification asks for: the filter, then one load per simple
      include, then one transform per complex include. */
  function Plan(spec: Specification): (steps: seq<Step>)
    ensures |steps| == (if spec.criteria.Some? then 1 else 0)
                       + |OrEmpty(spec.includes)| + |OrEmpty(spec.complexIncludes)|
    ensures forall i, j :: 0 <= i < j < |steps| ==> StageRank(steps[i]) <= StageRank(steps[j])
  {
    (if spec.criteria.Some? then [Keep(spec.criteria.value)] else [])
      + Loads(OrEmpty(spec.includes)) + Transforms(OrEmpty(spec.complexIncludes))
  }

  lemma {:induction false} RunAppend(q: Query, a: seq<Step>, b: seq<Step>)
    ensures Run(q, a + b) == Run(Run(q, a), b)
    decreases |a|
  {
    if |a| == 0 {
      assert a + b == b;
    } else {
      assert (a + b)[1..] == a[1..] + b;
      RunAppend(Perform(q, a[0]), a[1..], b);
    }
  }

  lemma {:induction false} RunLoads(q: Query, rels: seq<Relation>)
    ensures Run(q, Loads(rels)) == ApplyIncludes(q, rels)
    decreases |rels|
  {
    if |rels| > 0 {
      assert Loads(rels)[1..] == Loads(rels[1..]);
      RunLoads(Include(q, rels[0]), rels[1..]);
    }
  }

  lemma {:induction false} RunTransforms(q: Query, fs: seq<Query -> Query>)
    ensures Run(q, Transforms(fs)) == ApplyComplexIncludes(q, fs)
    decreases |fs|
  {
    if |fs| > 0 {
      assert Transforms(fs)[1..] == Transforms(fs[1..]);
      RunTransforms(fs[0](q), fs[1..]);
    }
  }

  /** The evaluator runs exactly the specification's plan: the filter first,
      then every simple include in list order, then every complex include in
      list order. */
  lemma GetQueryRunsPlan(input: Query, spec: Specification)
    ensures GetQuery(input, spec) == Run(input, Plan(spec))
  {
    var first: seq<Step> := if spec.criteria.Some? then [Keep(spec.criteria.value)] else [];
    var loads := Loads(OrEmpty(spec.includes));
    var transforms := Transforms(OrEmpty(spec.complexIncludes));
    RunAppend(input, first + loads, transforms);
    RunAppend(input, first, loads);
    var filtered := Run(input, first);
    assert filtered == if spec.criteria.Some? then Where(input, spec.criteria.value) else input;
    RunLoads(filtered, OrEmpty(spec.includes));
    RunTransforms(Run(filtered, loads), OrEmpty(spec.complexIncludes));
  }
}

=== FILE: generic_repository.dfy ===
/** `GenericRepository<T>`: reads and staged writes for one entity type, all
    through the one session of the context it was built with. */
module GenericRepository {

  import opened Wrappers
  import opened Domain
  import opened Contracts
  import opened SpecificationEvaluator
  import opened BaseSpecification
  import opened DbContext

  /** A repository instance: the entity type it serves, the context it is bound
      to, and, standing for its object identity, the unit that built it and that
      unit's serial number for it. */
  datatype Repo = Repo(entityType: EntityType, context: nat, owner: nat, instance: nat)

  /** `AddAsync`: stage an insert. */
  function AddAsync(repo: Repo, s: Session, e: Entity): (r: Result<Session, Error>)
    ensures r.Success? <==> !s.disposed && repo.entityType in s.tables
    ensures r.Success? ==> r.value.pending == s.pending + [Added(repo.entityType, e)]
    ensures r.Success? ==> r.value.tables == s.tables && r.value.tracked == s.tracked
  {
    Stage(s, Added(repo.entityType, e))
  }

  /** `Delete`: stage a removal. */
  function Delete(repo: Repo, s: Session, e: Entity): (r: Result<Session, Error>)
    ensures r.Success? <==> !s.disposed && repo.entityType in s.tables
    ensures r.Success? ==> r.value.pending == s.pending + [Deleted(repo.entityType, e)]
    ensures r.Success? ==> r.value.tables == s.tables && r.value.tracked == s.tracked
  {
    Stage(s, Deleted(repo.entityType, e))
  }

  /** `Update`: stage a full replacement of the stored row. */
  function Update(repo: Repo, s: Session, e: Entity): (r: Result<Session, Error>)
    ensures r.Success? <==> !s.disposed && repo.entityType in s.tables
    ensures r.Success? ==> r.value.pending == s.pending + [Modified(repo.entityType, e)]
    ensures r.Success? ==> r.value.tables == s.tables && r.value.tracked == s.tracked
  {
    Stage(s, Modified(repo.entityType, e))
  }

  /** One removal per entity, in the given order. */
  function Deletions(t: EntityType, es: seq<Entity>): (cs: seq<Change>)
    ensures |cs| == |es|
    decreases |es|
  {
    if |es| == 0 then [] else [Deleted(t, es[0])] + Deletions(t, es[1..])
  }

  /** The i-th staged removal is for the i-th entity. */
  lemma {:induction false} DeletionsInOrder(t: EntityType, es: seq<Entity>)
    ensures forall i :: 0 <= i < |es| ==> Deletions(t, es)[i] == Deleted(t, es[i])
    decreases |es|
  {
    if |es| > 0 {
      DeletionsInOrder(t, es[1..]);
      forall i | 1 <= i < |es|
        ensures Deletions(t, es)[i] == Deleted(t, es[i])
      {
        assert Deletions(t, es)[i] == Deletions(t, es[1..])[i - 1];
      }
    }
  }

  /** `RemoveRange`: stage a removal for each entity in one call. */
  function RemoveRange(repo: Repo, s: Session, es: seq<Entity>): (r: Result<Session, Error>)
    ensures r.Success? <==> !s.disposed && repo.entityType in s.tables
    ensures r.Success? ==> r.value.pending == s.pending + Deletions(repo.entityType, es)
    ensures r.Success? ==> r.value.tables == s.tables && r.value.tracked == s.tracked
  {
    var _ :- Set(s, repo.entityType);
    Success(s.(pending := s.pending + Deletions(repo.entityType, es)))
  }

  /** `Delete` called once per entity, in order. */
  function DeleteEach(repo: Repo, s: Session, es: seq<Entity>): Result<Session, Error>
    decreases |es|
  {
    if |es| == 0 then Success(s)
    else
      match Delete(repo, s, es[0])
      case Failure(err) => Failure(err)
      case Success(next) => DeleteEach(repo, next, es[1..])
  }

  /** On a usable session, deleting entities one by one stages one removal
      per entity, in order. */
  lemma {:induction false} DeleteEachStages(repo: Repo, s: Session, es: seq<Entity>)
    requires !s.disposed && repo.entityType in s.tables
    ensures DeleteEach(repo, s, es) == Success(s.(pending := s.pending + Deletions(repo.entityType, es)))
    decreases |es|
  {
    var t := repo.entityType;
    if |es| == 0 {
      assert s.pending + Deletions(t, es) == s.pending;
    } else {
      var next := s.(pending := s.pending + [Deleted(t, es[0])]);
      assert Delete(repo, s, es[0]) == Success(next);
      assert DeleteEach(repo, s, es) == DeleteEach(repo, next, es[1..]);
      DeleteEachStages(repo, next, es[1..]);
      assert Deletions(t, es) == [Deleted(t, es[0])] + Deletions(t, es[1..]);
      assert next.pending + Deletions(t, es[1..]) == s.pending + Deletions(t, es);
    }
  }

  /** Removing a non-empty range stages the same changes as deleting its
      entities one by one. */
  lemma RemoveRangeIsDeleteEach(repo: Repo, s: Session, es: seq<Entity>)
    requires |es| > 0
    ensures RemoveRange(repo, s, es) == DeleteEach(repo, s, es)
  {
    if Set(s, repo.entityType).Success? {
      DeleteEachStages(repo, s, es);
    } else {
      assert Delete(repo, s, es[0]).Failure?;
    }
  }

  /** The first row of a table with key `id`. */
  function FirstWithId(rows: seq<Entity>, id: int): (found: Option<Entity>)
    ensures found.Some? <==> HasId(rows, id)
    ensures found.Some? ==> found.value in rows && found.value.id == id
    ensures found.Some? && UniqueIds(rows) ==> forall i :: 0 <= i < |rows| && rows[i].id == id ==> rows[i] == found.value
    decreases |rows|
  {
    if |rows| == 0 then None
    else if rows[0].id == id then Some(rows[0])
    else
      var rest := FirstWithId(rows[1..], id);
      assert HasId(rows, id) ==> HasId(rows[1..], id) by {
        if HasId(rows, id) {
          var i :| 0 <= i < |rows| && rows[i].id == id;
          assert rows[1..][i - 1].id == id;
        }
      }
      assert forall i :: 1 <= i < |rows| ==> rows[i] == rows[1..][i - 1];
      rest
  }

  /** `GetByIdAsync` (`FindAsync`): the row with key `id`, or nothing when no row
      has it. A found entity becomes tracked; nothing is staged. */
  function GetByIdAsync(repo: Repo, s: Session, id: int): (o: Outcome<Option<Entity>>)
    ensures o.result.Success? <==> !s.disposed && repo.entityType in s.tables
    ensures o.result.Success? ==> (o.result.value.Some? <==> HasId(s.tables[repo.entityType], id))
    ensures o.result.Success? && o.result.value.Some? ==>
              o.result.value.value in s.tables[repo.entityType] && o.result.value.value.id == id
    ensures o.result.Success? && o.result.value.Some? ==> o.session.tracked == s.tracked + {(repo.entityType, id)}
    ensures o.result.Failure? || o.result.value.None? ==> o.session == s
    ensures o.session.tables == s.tables && o.session.pending == s.pending && o.session.disposed == s.disposed
  {
    match Set(s, repo.entityType)
    case Failure(err) => Outcome(Failure(err), s)
    case Success(rows) =>
      var found := FirstWithId(rows, id);
      if found.Some? then Outcome(Success(found), s.(tracked := s.tracked + {(repo.entityType, id)}))
      else Outcome(Success(None), s)
  }

  /** `GetAllAsync`: every committed row of the type, untracked. */
  function GetAllAsync(repo: Repo, s: Session): (r: Result<seq<Entity>, Error>)
    ensures r.Success? <==> !s.disposed && repo.entityType in s.tables
    ensures r.Success? ==> r.value == s.tables[repo.entityType]
  {
    Set(s, repo.entityType)
  }

  /** `GetAllWithSpecAsync`: the evaluated specification over the whole table,
      untracked. */
  function GetAllWithSpecAsync(repo: Repo, s: Session, spec: Specification): (r: Result<Query, Error>)
    ensures r.Success? <==> !s.disposed && repo.entityType in s.tables
    ensures r.Success? && !HasAny(spec.complexIncludes) ==>
              forall e :: e in r.value.rows <==> e in s.tables[repo.entityType] && Admits(spec, e)
    ensures r.Success? && !HasAny(spec.complexIncludes) ==>
              forall e :: multiset(r.value.rows)[e] == if Admits(spec, e) then multiset(s.tables[repo.entityType])[e] else 0
    ensures r.Success? && !HasAny(spec.complexIncludes) ==> r.value.loaded == IncludedRelations(spec)
    // with complex includes too: the table run through the specification's plan
    ensures r.Success? ==> r.value == Run(FromTable(s.tables[repo.entityType]), Plan(spec))
  {
    var rows :- Set(s, repo.entityType);
    GetQueryRunsPlan(FromTable(rows), spec);
    Success(GetQuery(FromTable(rows), spec))
  }

  /** `GetEntityWithSpecAsync`: the first row of the evaluated specification, or
      nothing when it yields none. The query is tracked, so a found row becomes
      tracked; nothing is staged. */
  function GetEntityWithSpecAsync(repo: Repo, s: Session, spec: Specification): (o: Outcome<Option<Entity>>)
    ensures o.result.Success? <==> !s.disposed && repo.entityType in s.tables
    ensures o.result.Success? && !HasAny(spec.complexIncludes) ==>
              (o.result.value.Some? <==> exists e :: e in s.tables[repo.entityType] && Admits(spec, e))
    ensures o.result.Success? && o.result.value.Some? && !HasAny(spec.complexIncludes) ==>
              o.result.value.value in s.tables[repo.entityType] && Admits(spec, o.result.value.value)
    ensures o.result.Success? && o.result.value.Some? ==>
              o.session.tracked == s.tracked + {(repo.entityType, o.result.value.value.id)}
    ensures o.result.Failure? || o.result.value.None? ==> o.session == s
    ensures o.session.tables == s.tables && o.session.pending == s.pending && o.session.disposed == s.disposed
  {
    match Set(s, repo.entityType)
    case Failure(err) => Outcome(Failure(err), s)
    case Success(rows) =>
      var matched := GetQuery(FromTable(rows), spec).rows;
      if |matched| == 0 then Outcome(Success(None), s)
      else
        assert matched[0] in matched;
        Outcome(Success(Some(matched[0])), s.(tracked := s.tracked + {(repo.entityType, matched[0].id)}))
  }

  /** The single-entity read is the head of the list read: both fail alike, and
      on success the entity is the list's first row, or nothing for an empty list. */
  lemma EntityWithSpecIsHeadOfAll(repo: Repo, s: Session, spec: Specification)
    ensures GetEntityWithSpecAsync(repo, s, spec).result.Success? <==> GetAllWithSpecAsync(repo, s, spec).Success?
    ensures GetAllWithSpecAsync(repo, s, spec).Success? ==>
              var all := GetAllWithSpecAsync(repo, s, spec).value.rows;
              GetEntityWithSpecAsync(repo, s, spec).result.value == if |all| == 0 then None else Some(all[0])
  {
  }

  /** With the default specification the list read returns the same rows, in
      the same order, as `GetAllAsync`. */
  lemma DefaultSpecReadsAll(repo: Repo, s: Session)
    ensures GetAllWithSpecAsync(repo, s, Default()).Success? <==> GetAllAsync(repo, s).Success?
    ensures GetAllAsync(repo, s).Success? ==>
              GetAllWithSpecAsync(repo, s, Default()).value.rows == GetAllAsync(repo, s).value
  {
  }

  /** A criteria plus an appended simple include: every row read satisfies the
      criteria, every matching row is read, and the relation is loaded on them. */
  lemma FilteredReadLoadsRelation(repo: Repo, s: Session, criteria: Entity -> bool, rel: Relation)
    requires !s.disposed && repo.entityType in s.tables
    ensures AddInclude(FromCriteria(criteria), rel).Success?
    ensures var spec := AddInclude(FromCriteria(criteria), rel).value;
      var r := GetAllWithSpecAsync(repo, s, spec);
      && r.Success?
      && (forall e :: e in r.value.rows <==> e in s.tables[repo.entityType] && criteria(e))
      && rel in r.value.loaded
  {
  }
}

=== FILE: unit_of_work.dfy ===
/** `UnitOfWork`: one store session, a cache of repositories keyed by short type
    name, and the single commit that writes whatever any of them staged. */
module UnitOfWork {

  import opened Wrappers
  import opened Domain
  import opened DbContext
  import opened Contracts
  import opened GenericRepository

  /** `id` stands for the unit's object identity and `context` names the
      session it owns; `created` counts the repositories it has built, which
      numbers them. */
  datatype Unit = Unit(id: nat, context: nat, session: Session, repositories: map<string, Repo>, created: nat)

  /** A repository handed out, with the unit as it stands afterwards. */
  datatype Handed = Handed(repo: Repo, unit: Unit)

  /** A commit's result, with the unit as it stands afterwards. */
  datatype Completed = Completed(result: Result<nat, Error>, unit: Unit)

  /** A repository this unit built for short name `n`, as the cache holds it. */
  ghost predicate BuiltFor(u: Unit, n: string, repo: Repo) {
    && repo.entityType.name == n
    && repo.context == u.context
    && repo.owner == u.id
    && repo.instance < u.created
  }

  /** Every cached repository sits under its type's short name, is bound to the
      unit's own context, was built by this unit, and is a distinct instance. */
  ghost predicate Valid(u: Unit) {
    && (forall n :: n in u.repositories ==> BuiltFor(u, n, u.repositories[n]))
    && (forall n, m :: n in u.repositories && m in u.repositories && n != m ==>
          u.repositories[n].instance != u.repositories[m].instance)
  }

  /** `new UnitOfWork(dbContext)`: the session, and no repository yet. */
  function Create(id: nat, context: nat, session: Session): (u: Unit)
    ensures Valid(u)
    ensures u.id == id && u.context == context && u.session == session && |u.repositories| == 0
  {
    Unit(id, context, session, map[], 0)
  }

  /** `Repository<T>()`: the cached repository for `t`'s short name, or a new one
      bound to the unit's context, cached under that name. When the name is
      cached for another type with the same short name, the downcast throws. */
  function Repository(u: Unit, t: EntityType): (r: Result<Handed, Error>)
    // first request: one new entry, bound to this unit's context, a fresh instance
    ensures t.name !in u.repositories ==>
              && r.Success?
              && r.value.unit.repositories == u.repositories[t.name := r.value.repo]
              && r.value.repo.entityType == t
              && r.value.repo.context == u.context
              && r.value.repo.owner == u.id
              && (Valid(u) ==> forall n :: n in u.repositories ==> u.repositories[n] != r.value.repo)
    // later requests: the cached instance, and nothing changes
    ensures t.name in u.repositories && u.repositories[t.name].entityType == t ==>
              r == Success(Handed(u.repositories[t.name], u))
    // same short name, other type: the cast fails and nothing changes
    ensures t.name in u.repositories && u.repositories[t.name].entityType != t ==>
              r == Failure(InvalidCast(t, u.repositories[t.name].entityType))
    // entries under other names are untouched, and the session is never touched
    ensures r.Success? ==> forall n :: n != t.name ==>
              (n in r.value.unit.repositories <==> n in u.repositories)
              && (n in u.repositories ==> r.value.unit.repositories[n] == u.repositories[n])
    ensures r.Success? ==> r.value.unit.session == u.session && r.value.unit.context == u.context && r.value.unit.id == u.id
    ensures r.Success? && Valid(u) ==> Valid(r.value.unit)
  {
    if t.name in u.repositories then
      var cached := u.repositories[t.name];
      if cached.entityType == t then Success(Handed(cached, u))
      else Failure(InvalidCast(t, cached.entityType))
    else
      var repo := Repo(t, u.context, u.id, u.created);
      Success(Handed(repo, u.(repositories := u.repositories[t.name := repo], created := u.created + 1)))
  }

  /** Asking twice for the same type yields the identical instance and leaves
      the unit as the first call left it. */
  lemma RepositoryIsStable(u: Unit, t: EntityType)
    requires Repository(u, t).Success?
    ensures var h := Repository(u, t).value;
      Repository(h.unit, t) == Success(h)
  {
  }

  /** Two distinct units never hand out the same repository instance, even
      when they share a context. */
  lemma UnitsShareNoRepository(u: Unit, v: Unit, t: EntityType, w: EntityType)
    requires Valid(u) && Valid(v) && u.id != v.id
    requires Repository(u, t).Success? && Repository(v, w).Success?
    ensures Repository(u, t).value.repo != Repository(v, w).value.repo
  {
  }

  /** Request repositories for each type in turn; a failed cast leaves the unit
      as it was. */
  function RequestAll(u: Unit, ts: seq<EntityType>): Unit
    decreases |ts|
  {
    if |ts| == 0 then u
    else
      RequestAll(After(u, ts[0]), ts[1..])
  }

  /** The short names among the requested types. */
  function Names(ts: seq<EntityType>): set<string> {
    set i | 0 <= i < |ts| :: ts[i].name
  }

  lemma NamesCons(ts: seq<EntityType>)
    requires |ts| > 0
    ensures Names(ts) == {ts[0].name} + Names(ts[1..])
  {
  }

  /** The unit after one request, whether or not the cast succeeded. */
  function After(u: Unit, t: EntityType): Unit {
    match Repository(u, t)
    case Failure(_) => u
    case Success(h) => h.unit
  }

  lemma AfterCaches(u: Unit, t: EntityType)
    requires Valid(u)
    ensures After(u, t).repositories.Keys == u.repositories.Keys + {t.name}
    ensures forall n :: n in u.repositories ==> After(u, t).repositories[n] == u.repositories[n]
    ensures Valid(After(u, t))
    ensures After(u, t).session == u.session && After(u, t).context == u.context && After(u, t).id == u.id
  {
  }

  /** The cache only grows: after any run of requests it holds exactly the old
      names plus every requested name, old entries unchanged, still valid. */
  lemma {:induction false} RequestAllCachesNames(u: Unit, ts: seq<EntityType>)
    requires Valid(u)
    ensures RequestAll(u, ts).repositories.Keys == u.repositories.Keys + Names(ts)
    ensures forall n :: n in u.repositories ==> RequestAll(u, ts).repositories[n] == u.repositories[n]
    ensures Valid(RequestAll(u, ts))
    ensures RequestAll(u, ts).session == u.session && RequestAll(u, ts).context == u.context
    ensures RequestAll(u, ts).id == u.id
    decreases |ts|
  {
    if |ts| > 0 {
      NamesCons(ts);
      var next := After(u, ts[0]);
      AfterCaches(u, ts[0]);
      assert RequestAll(u, ts) == RequestAll(next, ts[1..]);
      RequestAllCachesNames(next, ts[1..]);
    }
  }

  /** A fresh unit's cache holds one repository per distinct short name requested. */
  lemma CacheSizeIsDistinctNames(id: nat, context: nat, s: Session, ts: seq<EntityType>)
    ensures |RequestAll(Create(id, context, s), ts).repositories| == |Names(ts)|
  {
    RequestAllCachesNames(Create(id, context, s), ts);
  }

  /** `CompleteAsync`: commit the unit's one session. On success the count is the
      number of staged changes and none remain; on failure nothing changes. */
  function CompleteAsync(u: Unit, accepted: bool): (c: Completed)
    ensures c.result.Success? ==> c.result.value == |u.session.pending| && c.unit.session.pending == []
    ensures c.result.Success? ==>
              var applied := ApplyChanges(u.session.tables, u.session.pending);
              applied.Success? && c.unit.session.tables == applied.value
    ensures c.result.Failure? ==> c.unit == u
    ensures c.unit.repositories == u.repositories && c.unit.context == u.context && c.unit.created == u.created
    ensures c.unit.id == u.id
    ensures u.session.disposed ==> c.result == Failure(ContextDisposed)
    // nothing staged: nothing to write, whatever the database would say
    ensures !u.session.disposed && u.session.pending == [] ==> c.result == Success(0) && c.unit == u
  {
    var o := SaveChanges(u.session, accepted);
    Completed(o.result, u.(session := o.session))
  }

  /** `DisposeAsync`: release the session; the cache is kept but unusable. */
  function DisposeAsync(u: Unit): (v: Unit)
    ensures v.session.disposed && v.session.tables == u.session.tables && v.session.pending == u.session.pending
    ensures v.repositories == u.repositories && v.context == u.context && v.id == u.id && v.created == u.created
  {
    u.(session := Dispose(u.session))
  }

  /** A write a caller makes through a repository. */
  datatype Write = Insert(entity: Entity) | Modify(entity: Entity) | Remove(entity: Entity) | RemoveAll(entities: seq<Entity>)

  /** The changes a write stages for entity type `t`. */
  function Changes(t: EntityType, w: Write): seq<Change> {
    match w
    case Insert(e) => [Added(t, e)]
    case Modify(e) => [Modified(t, e)]
    case Remove(e) => [Deleted(t, e)]
    case RemoveAll(es) => Deletions(t, es)
  }

  /** A staging call (`AddAsync`, `Update`, `Delete`, `RemoveRange`) on a
      repository bound to the unit's context. The repository acts on that
      context's session, which is the one the unit commits, so only the unit's
      session changes: the write is appended to its staged changes. */
  function StageVia(u: Unit, repo: Repo, w: Write): (r: Result<Unit, Error>)
    requires repo.context == u.context
    ensures r.Success? <==> !u.session.disposed && repo.entityType in u.session.tables
    ensures u.session.disposed ==> r == Failure(ContextDisposed)
    ensures r.Success? ==> r.value == u.(session := r.value.session)
    ensures r.Success? ==> r.value.session.pending == u.session.pending + Changes(repo.entityType, w)
    ensures r.Success? ==> r.value.session.tables == u.session.tables && !r.value.session.disposed
  {
    var staged := match w
      case Insert(e) => AddAsync(repo, u.session, e)
      case Modify(e) => Update(repo, u.session, e)
      case Remove(e) => Delete(repo, u.session, e)
      case RemoveAll(es) => RemoveRange(repo, u.session, es);
    var s :- staged;
    Success(u.(session := s))
  }

  /** After disposal neither a commit nor any read or staging call through a
      repository succeeds: each fails with the disposed-context error. */
  lemma DisposedUnitFailsFast(u: Unit, repo: Repo, accepted: bool, id: int, spec: Specification, w: Write)
    ensures var v := DisposeAsync(u);
      && CompleteAsync(v, accepted).result == Failure(ContextDisposed)
      && GetAllAsync(repo, v.session) == Failure(ContextDisposed)
      && GetByIdAsync(repo, v.session, id).result == Failure(ContextDisposed)
      && GetAllWithSpecAsync(repo, v.session, spec) == Failure(ContextDisposed)
      && GetEntityWithSpecAsync(repo, v.session, spec).result == Failure(ContextDisposed)
      && (repo.context == u.context ==> StageVia(v, repo, w) == Failure(ContextDisposed))
  {
  }

  /** On a usable session, inserting through a repository of the unit's
      context appends exactly that insert to the unit's staged changes. */
  lemma StageInsertAppends(u: Unit, repo: Repo, e: Entity)
    requires repo.context == u.context && !u.session.disposed && repo.entityType in u.session.tables
    ensures StageVia(u, repo, Insert(e))
              == Success(u.(session := u.session.(pending := u.session.pending + [Added(repo.entityType, e)])))
  {
  }

  /** Repositories for two types, both from one unit, stage into the unit's one
      session, so a single commit writes the inserts of both. */
  lemma CompleteCoversEveryRepository(u: Unit, t1: EntityType, t2: EntityType, e1: Entity, e2: Entity)
    requires Valid(u) && !u.session.disposed && u.session.pending == []
    requires t1 in u.session.tables && t2 in u.session.tables
    requires Repository(u, t1).Success?
    requires Repository(Repository(u, t1).value.unit, t2).Success?
    ensures var h1 := Repository(u, t1).value;
      var h2 := Repository(h1.unit, t2).value;
      && h1.repo.context == h2.unit.context && h2.repo.context == h2.unit.context
      && StageVia(h2.unit, h1.repo, Insert(e1)).Success?
      && var v1 := StageVia(h2.unit, h1.repo, Insert(e1)).value;
      && StageVia(v1, h2.repo, Insert(e2)).Success?
      && var v2 := StageVia(v1, h2.repo, Insert(e2)).value;
      && v2.session.pending == [Added(t1, e1), Added(t2, e2)]
      && CompleteAsync(v2, true).result == Success(2)
  {
    var h1 := Repository(u, t1).value;
    var h2 := Repository(h1.unit, t2).value;
    assert h2.unit.session == u.session && h1.repo.entityType == t1 && h2.repo.entityType == t2;
    StageInsertAppends(h2.unit, h1.repo, e1);
    var v1 := StageVia(h2.unit, h1.repo, Insert(e1)).value;
    StageInsertAppends(v1, h2.repo, e2);
    var v2 := StageVia(v1, h2.repo, Insert(e2)).value;
    assert v2.session.pending == [Added(t1, e1), Added(t2, e2)];
    CommitTwoInserts(v2.session, t1, e1, t2, e2);
  }

  /** Add through a unit's repository, commit, then look the new key up: the
      commit reports one change and the lookup returns the added entity under its
      generated key. */
  lemma AddCompleteFind(id: nat, context: nat, s: Session, t: EntityType, e: Entity)
    requires !s.disposed && t in s.tables && s.pending == []
    ensures var h := Repository(Create(id, context, s), t).value;
      var v := StageVia(h.unit, h.repo, Insert(e)).value;
      var c := CompleteAsync(v, true);
      var key := NextId(s.tables[t]);
      && c.result == Success(1)
      && GetByIdAsync(h.repo, c.unit.session, key).result == Success(Some(e.(id := key)))
  {
    var h := Repository(Create(id, context, s), t).value;
    var v := StageVia(h.unit, h.repo, Insert(e)).value;
    CommitSingleInsert(v.session, t, e);
    var c := CompleteAsync(v, true);
    var key := NextId(s.tables[t]);
    var rows := s.tables[t] + [e.(id := key)];
    assert c.unit.session.tables[t] == rows;
    var found := FirstWithId(rows, key);
    assert rows[|rows| - 1].id == key;
    assert HasId(rows, key);
    assert found.Some? && found.value in rows && found.value.id == key;
    assert found.value == e.(id := key) by {
      var k :| 0 <= k < |rows| && rows[k] == found.value;
      if k < |s.tables[t]| {
        assert rows[k] == s.tables[t][k];
      }
    }
  }
}

=== FILE: wrappers.dfy ===
/** Failure-compatible wrappers: `Option` stands for a C# reference that may be
    null, `Result` for an operation that may throw. */
module Wrappers {

  datatype Option<+T> = None | Some(value: T)

  datatype Result<+T, +E> = Success(value: T) | Failure(error: E) {

    predicate IsFailure() {
      Failure?
    }

    function PropagateFailure<U>(): Result<U, E>
      requires Failure?
    {
      Failure(error)
    }

    function Extract(): T
      requires Success?
    {
      value
    }
  }
}
